=== FILE: README.md ===
# Sync, live-listener and attachment decisions of the matrix-sdk iOS bridge

This project models three small sequential decision cores of the Matrix Rust
SDK's iOS bridge and its attachment sender. It proves properties of those
models in Dafny.

- **Sync cycle over `ClientState`** (`crates/matrix-sdk-ffi/src/ios.rs`). The
  callback that `start_sync` hands to the engine's sync loop is modelled as the
  transition `SyncState.SyncStep`. `SyncState.Run` folds it over a finite
  horizon of sync rounds. A stop request is a model input (`stops`), because
  nothing in the code sets `should_stop_syncing`. The three construction flows
  fix `is_guest`. The restore token carries it across a suspend/resume; that is
  the `Session` module. `Room::messages` filters one page of history; that is
  the `Snapshot` module.
- **Per-room live-event listener** (`crates/matrix-sdk-ffi/src/ios/room.rs`). A
  room holds a listening flag and a delegate slot. Start is guarded against a
  double start. Stop clears the flag. The forwarding task is `LiveRoom.Forward`.
  It runs over the pulls it makes, and each pull records the event, the flag it
  read and the delegate it read. Those pulls are derived from a sequential
  schedule of pulls, stops, starts and delegate changes in two ways.
  `LiveRoom.ObserveAsWritten` reads the room's shared flag, as the code does.
  `LiveRoom.Observe` gives the task a cancellation token of its own, which is
  the corrected behaviour the rest of the model uses (see "## Findings").
- **Attachment thumbnail decision** (`crates/matrix-sdk/src/room/futures.rs`).
  `RoomFutures.IntoFuture` decides what `prepare_and_send_attachment` receives.
  The options are the caller's config unchanged, a rebuilt config with a
  generated JPEG thumbnail, a rebuilt config without a thumbnail, or an error
  with no send. Thumbnail generation is a parameter. So is the `image-proc`
  feature.

`Sequences` holds `FilterMap` (Rust's `filter_map`). It also holds `Kept`, an
independent description of `FilterMap` by the indices it keeps. Both
`Room::messages` and the forwarding loop are instances of it. `Wrappers` holds
`Option` and `Result`.

Every call into the engine, the URL parser, the file system or `serde_json` is
a parameter. For the construction flows these calls are the function fields of
`Session.Platform`. The restore token codec is an encoder/decoder pair. The
only law assumed of that pair is the round trip (`Session.RoundTrips`), and it
is assumed only where it is used. The source folds every construction failure
into one `anyhow::Error` with a message. The model names the step that failed
(`Session.Failure`) instead.

## Model

| member | source | states |
|---|---|---|
| SyncState.NewState | crates/matrix-sdk-ffi/src/ios.rs:51-61 | a fresh state has `has_first_synced`, `is_syncing` and `should_stop_syncing` false; only `is_guest` is chosen |
| SyncState.SyncStep | crates/matrix-sdk-ffi/src/ios.rs:192-208 | the delegate is notified exactly once, and it sees the state before any update; afterwards `has_first_synced` holds; `is_guest` and `should_stop_syncing` are untouched; with a stop pending the callback clears `is_syncing` and breaks, otherwise it sets `is_syncing` and continues |
| SyncState.RequestStop | crates/matrix-sdk-ffi/src/ios.rs:60 | the model-only stop request sets `should_stop_syncing` and leaves the other three flags alone |
| SyncState.Run | crates/matrix-sdk-ffi/src/ios.rs:188-210 | over a horizon of rounds there is one notification per cycle and `is_guest` is preserved; `has_first_synced` holds after any cycle and a run of no cycles changes nothing; a loop that breaks has a stop pending and leaves `is_syncing` false; a loop that does not break runs every round and leaves `is_syncing` true |
| SyncState.RunBreaksAtFirstStop | crates/matrix-sdk-ffi/src/ios.rs:200-202 | the loop breaks exactly when a stop was already pending or is requested within the horizon, at the first round that sees one (round 1 when a stop was already pending); `should_stop_syncing` changes only through those requests |
| SyncState.RunComposes | crates/matrix-sdk-ffi/src/ios.rs:196-198 | running the loop in two stretches is running it once (when the first stretch does not break), so `has_first_synced` never returns to false |
| SyncState.HasFirstSynced | crates/matrix-sdk-ffi/src/ios.rs:214-216 | `has_first_synced()` reads the flag; what it reports over the loop is stated by `SyncState.Run` and `SyncState.RunComposes` (true after any cycle, never cleared) |
| SyncState.IsGuest | crates/matrix-sdk-ffi/src/ios.rs:223-226 | `is_guest()` reads the flag; `SyncState.Run` keeps it, and `Session.GuestFlagSurvivesRestore` carries it across a restore |
| SyncState.IsSyncingAsWritten | crates/matrix-sdk-ffi/src/ios.rs:218-221 | as written, `is_syncing()` always equals `has_first_synced()` |
| SyncState.IsSyncing | crates/matrix-sdk-ffi/src/ios.rs:218-219 | the accessor as its doc comment describes it, reading `is_syncing`; `SyncState.IsSyncingTracksLoop` states what it reports |
| SyncState.IsSyncingAsWrittenAfterStop | crates/matrix-sdk-ffi/src/ios.rs:218-220 | as written, every client whose loop has broken on a stop request reports that it is syncing while it is not |
| SyncState.IsSyncingAgreesWithoutStop | crates/matrix-sdk-ffi/src/ios.rs:194-220 | with no stop pending or requested, the accessor as written and the corrected one agree on every state the loop reaches from a state where they agree |
| SyncState.IsSyncingTracksLoop | crates/matrix-sdk-ffi/src/ios.rs:200-205 | the corrected accessor is true after a run exactly when the loop is still continuing |
| Session.NewClient | crates/matrix-sdk-ffi/src/ios.rs:181-186 | `Client::new` wraps a logged-in connection with a fresh state that carries the given guest flag |
| Session.GuestClient | crates/matrix-sdk-ffi/src/ios.rs:286-303 | a guest client succeeds exactly when the URL parses, the store is ready, the connection is made, the registration is accepted and the session it hands out is restored; a client built this way has `is_guest` true, a fresh state and the registration's credentials; a bad URL fails first |
| Session.LoginNewClient | crates/matrix-sdk-ffi/src/ios.rs:319-329 | a password login succeeds exactly when the store (named after the raw user name) is ready, the user id parses, its homeserver is found and the login is accepted; the store is checked before the user id; the client has the discovered homeserver, the session the login returned, `is_guest` false and a fresh state |
| Session.LoginWithToken | crates/matrix-sdk-ffi/src/ios.rs:305-316 | a malformed token fails; otherwise restoring succeeds exactly when the token's URL parses, the store named after its user id is ready, the connection is made and the session is accepted; the client gets the token's homeserver, session and guest flag, with a fresh sync state |
| Session.RestoreTokenOf | crates/matrix-sdk-ffi/src/ios.rs:228-236 | `restore_token()` encodes the guest flag, homeserver and session of a client that has a session; what the token gives back is stated by `Session.TokenRoundTrip` |
| Session.TokenRoundTrip | crates/matrix-sdk-ffi/src/ios.rs:228-236 | logging in with a client's own restore token reproduces its homeserver, session and guest flag, with a fresh sync state; it fails only where the platform refuses the restore |
| Session.GuestFlagSurvivesRestore | crates/matrix-sdk-ffi/src/ios.rs:305-316 | whatever the sync loop did to the state, a restored client has the guest flag of the client it was restored from |
| Snapshot.Messages | crates/matrix-sdk-ffi/src/ios.rs:142-157 | `messages()` yields at most one string per event of the page; its exact content is stated by `Snapshot.MessagesAreRoomMessagesInOrder` |
| Snapshot.MessageIndices | crates/matrix-sdk-ffi/src/ios.rs:147-153 | the positions of the page's room messages, increasing, covering every room message and nothing else |
| Snapshot.MessagesAreRoomMessagesInOrder | crates/matrix-sdk-ffi/src/ios.rs:147-153 | `messages()` returns one formatted string per room message of the page, in page order; other event kinds and decode failures are skipped |
| LiveRoom.NewRoom | crates/matrix-sdk-ffi/src/ios/room.rs:26-32 | a new room is not listening and has no delegate |
| LiveRoom.SetDelegate | crates/matrix-sdk-ffi/src/ios/room.rs:34-36 | the delegate slot is replaced wholesale (also by `None`); the flag is untouched |
| LiveRoom.StartListener | crates/matrix-sdk-ffi/src/ios/room.rs:84-115 | when already listening, start returns `None` and changes nothing; otherwise it sets the flag and returns the backwards handle; the delegate is untouched |
| LiveRoom.StopListener | crates/matrix-sdk-ffi/src/ios/room.rs:117-119 | stop clears the flag unconditionally and leaves the delegate alone |
| LiveRoom.StartTwiceRefused | crates/matrix-sdk-ffi/src/ios/room.rs:85-89 | a second start without a stop in between returns `None` and leaves the room as the first start left it |
| LiveRoom.StopThenStart | crates/matrix-sdk-ffi/src/ios/room.rs:117-119 | stop is idempotent, and a start after a stop succeeds again |
| LiveRoom.LivePrefix | crates/matrix-sdk-ffi/src/ios/room.rs:102-105 | the number of leading pulls that saw the flag set; the pull right after them, if any, saw it cleared |
| LiveRoom.Forward | crates/matrix-sdk-ffi/src/ios/room.rs:99-113 | the task is cancelled exactly when some pull sees the flag cleared; it then has pulled the live pulls plus that one, and otherwise the whole stream; it delivers at most one message per live pull |
| LiveRoom.ForwardIsFilterMap | crates/matrix-sdk-ffi/src/ios/room.rs:102-111 | the deliveries are exactly the in-order decoded messages of the pulls made before cancellation that saw a delegate, each to the delegate seen |
| LiveRoom.CancelledIgnoresRest | crates/matrix-sdk-ffi/src/ios/room.rs:102-105 | once a pull sees the flag cleared, no later event affects the run |
| LiveRoom.DroppedWithoutDelegate | crates/matrix-sdk-ffi/src/ios/room.rs:107 | an event pulled while no delegate is set is dropped, not queued: the deliveries are those of the stream without it |
| LiveRoom.ObserveAsWritten | crates/matrix-sdk-ffi/src/ios/room.rs:85-105 | the pulls a task makes along a schedule of pulls, stops, starts and delegate changes, exactly one pull per event the schedule offers (`EventsOf`); with `ObserveAsWrittenSnoc`, each pull carries the room's shared flag and delegate as the calls before it left them (`After`) |
| LiveRoom.Observe | crates/matrix-sdk-ffi/src/ios/room.rs:102-107 | the same, with the task polling a token of its own that a stop clears and no later start sets again; exactly one pull per event the schedule offers; with `ObserveSnoc`, each pull carries the starting token unless a stop came before it, and the delegate the calls before it left |
| LiveRoom.EventsOfIsFilterMap | crates/matrix-sdk-ffi/src/ios/room.rs:102-107 | the events a schedule offers are the `NextEvent` payloads filtered out of it in order, so `Kept` gives their positions |
| LiveRoom.ObserveAsWrittenSnoc | crates/matrix-sdk-ffi/src/ios/room.rs:93-109 | as written, an event pulled after any schedule reads the room's flag and delegate as that schedule of stops, starts and delegate changes left them |
| LiveRoom.ObserveSnoc | crates/matrix-sdk-ffi/src/ios/room.rs:102-109 | with a task-owned token, an event pulled after any schedule reads the starting token unless the schedule held a stop, and the delegate the schedule left |
| LiveRoom.ObserveAsWrittenCarriesEvents | crates/matrix-sdk-ffi/src/ios/room.rs:102-107 | the k-th pull the task makes is the k-th event the schedule offers, whatever stops, starts and delegate changes come between |
| LiveRoom.ObserveCarriesEvents | crates/matrix-sdk-ffi/src/ios/room.rs:102-107 | the same for a task polling a token of its own |
| LiveRoom.ObservePulling | crates/matrix-sdk-ffi/src/ios/room.rs:102-107 | on a schedule of pulls alone, every pull sees the token and delegate the task started with |
| LiveRoom.ObserveAcrossStop | crates/matrix-sdk-ffi/src/ios/room.rs:102-105 | with a task-owned token, the pulls across a stop are the pulls before it followed by those of a task whose token is cleared, whatever the later calls |
| LiveRoom.ObserveAgreesWithoutRestart | crates/matrix-sdk-ffi/src/ios/room.rs:85-105 | on schedules with no start, the task-owned token and the shared flag give the same pulls |
| LiveRoom.RestartRevivesStoppedTask | crates/matrix-sdk-ffi/src/ios/room.rs:85-105 | as written, after a stop and then a start, the stopped task still delivers the next event and the new task delivers it too; with a task-owned token the stopped task delivers nothing |
| LiveRoom.StopCancels | crates/matrix-sdk-ffi/src/ios/room.rs:102-105 | with a cancellation token owned by the task, after a stop nothing more reaches the delegate from that task and it pulls at most one more event, whatever calls follow, restarts included |
| LiveRoom.ForwardsDecodedInOrder | crates/matrix-sdk-ffi/src/ios/room.rs:102-111 | with the listener on and a delegate set throughout, the delegate receives exactly the events that decode, each once, in stream order |
| LiveRoom.ForwardsDecodedInOrderAsWritten | crates/matrix-sdk-ffi/src/ios/room.rs:102-111 | the same for the listener as written, reading the room's shared flag |
| RoomFutures.NewSendAttachment | crates/matrix-sdk/src/room/futures.rs:50-66 | the future keeps its arguments and starts with the default progress observable |
| RoomFutures.WithSendProgressObservable | crates/matrix-sdk/src/room/futures.rs:71-77 | only the progress observable is replaced |
| RoomFutures.IntoFuture | crates/matrix-sdk/src/room/futures.rs:84-153 | with a caller-supplied thumbnail everything is sent unchanged; every send goes out with the original room, body, content type, progress observable and bytes; a rebuilt config keeps `txn_id` and `info` and clears `generate_thumbnail` and `thumbnail_size`; with generation off or not compiled in, the send has no thumbnail; a generated thumbnail is sent as JPEG with its info; `ThumbnailBiggerThanOriginal` and `FormatNotSupported` still send, without a thumbnail; any other error fails without sending, and nothing else fails |
| RoomFutures.SentConfigIsSettled | crates/matrix-sdk/src/room/futures.rs:137-145 | sending the attachment again with the config it was sent with sends the same thing, whatever the generator and feature set |
| RoomFutures.ProgressOnlyAffectsProgress | crates/matrix-sdk/src/room/futures.rs:71-77 | replacing the progress observable changes nothing about the send except the observable it reports to |

## Left out

- The Tokio runtime (`RUNTIME`, `block_on`, `spawn`, `spawn_blocking` and its join panic) and tracing spans: these are execution plumbing. Every operation is modelled as atomic and sequential.
- Lock interleavings: the per-field lock steps of the sync callback and the read-then-write guard of `start_live_event_listener` (two starts racing past it) are not modelled; every call is atomic. Interleavings of whole foreign calls with the listener task's pulls are modelled (`LiveRoom.Action`), including a restart after a stop.
- `start_sync` called twice, which spawns two loops over one state: concurrency, not modelled.
- What the sync loop does when a sync round itself fails: the code does not say.
- Calls that only wrap the engine: room and client metadata accessors (`identifier`, `name`, `display_name`, `topic`, `avatar`, `avatar_url`, `is_direct`, `is_public`, `is_encrypted`, `is_space`, `user_id`, `device_id`, `conversations`), `sync_with_callback`, `timeline`, `get_media_content`, and the `Deref` impls.
- `serde_json`, `Url::parse`, `sanitize` and `fs::create_dir_all` in `new_client_config`: foreign libraries and I/O. They are parameters that either succeed or fail. URL normalisation on the way back through `homeserver()` is not modelled; the homeserver string is kept as given.
- Session.RestoreTokenOf: `serde_json::to_string` is taken to succeed, because the encoder is a total parameter.
- `expect(...)` panics are preconditions, not modelled failures. This covers the session `restore_token` needs, the access token and device id of a guest registration, the timeline of `start_live_event_listener`, and the history page of `messages()`.
- The contents of the `BackwardsStream` cursor; it is returned to the caller untouched.
- Image decoding and thumbnail generation internals (`generate_image_thumbnail`): a parameter. `ImageError` variants other than the two tolerated ones are one case. The conversion of an image error into the crate's error type is not modelled.
- Room messages' text form (`format!("{}: {:?}", ..)`) and event deserialisation: parameters.
- SyncState.Run: covers a finite horizon of rounds; an endless loop is the limit of these horizons.
- LiveRoom.Forward: covers a forward stream that ends after finitely many events; a stream that never ends is not modelled.

## Findings

| source | as written | input that shows it | evidently intended | confidence | as-written member | corrected member |
|---|---|---|---|---|---|---|
| crates/matrix-sdk-ffi/src/ios/room.rs:85-105 | the listener task polls the room's shared flag, so a stop followed by a start before the task's next pull leaves the stopped task running beside the new one | `Room(true, Some(d))`, then stop, then start, then one event that decodes: both tasks deliver it, so the delegate gets it twice | each task polls a cancellation token of its own, cleared by the stop and not set again by a later start, so one task forwards per room and a stop bounds delivery | medium, not executed | LiveRoom.RestartRevivesStoppedTask | LiveRoom.StopCancels |
| crates/matrix-sdk-ffi/src/ios.rs:218-220 | `is_syncing()` returns `has_first_synced`, although its doc comment promises whether the client is currently syncing | any client whose sync loop has broken on a stop request, for instance a fresh non-guest client asked to stop before its first callback: `has_first_synced` is true, `is_syncing` is false, and the accessor reports true | return the `is_syncing` field | high that the accessor reads the wrong field; latent: the wrong answer needs a stop request, which nothing in ios.rs makes, and without one the two agree (`SyncState.IsSyncingAgreesWithoutStop`); not executed | SyncState.IsSyncingAsWrittenAfterStop | SyncState.IsSyncingTracksLoop |

=== FILE: live_room.dfy ===
/** The per-room live-event listener (crates/matrix-sdk-ffi/src/ios/room.rs).

    A room handle holds a delegate slot and a listening flag. Starting the
    listener sets the flag and spawns a task that forwards each event of the
    room's live stream to the delegate until it sees the flag cleared.

    Each foreign call is modelled as a whole step. In the source the guard reads
    the flag and the start then sets it under two separate lock acquisitions, so
    two starts racing on different threads can both pass the guard; that
    interleaving is not modelled. A start after a stop, as a sequence of whole
    calls, is: `ObserveAsWritten` lets the old task read the flag the restart
    set again. */
module LiveRoom {
  import opened Wrappers
  import opened Sequences

  /** A caller-supplied `RoomDelegate`, known by its identity. */
  datatype Delegate = Delegate(id: nat)

  /** A room handle's own state: the listening flag and the delegate slot. */
  datatype Room = Room(listening: bool, delegate: Option<Delegate>)

  /** What `start_live_event_listener` gives back: the room afterwards and, when
      a listener was started, the backwards-pagination handle. */
  datatype Started<B> = Started(room: Room, backwards: Option<B>)

  /** `Room::new`. */
  function NewRoom(): (r: Room)
    ensures !r.listening && r.delegate.None?
  {
    Room(false, None)
  }

  /** `set_delegate`: replace the delegate slot wholesale (also with `None`). */
  function SetDelegate(r: Room, d: Option<Delegate>): (r': Room)
    ensures r'.delegate == d && r'.listening == r.listening
  {
    r.(delegate := d)
  }

  /** `start_live_event_listener`. `backwards` is the backwards half of the
      room's timeline, which is only fetched when the guard lets the call
      through. */
  function StartListener<B>(r: Room, backwards: B): (s: Started<B>)
    ensures r.listening ==> s == Started(r, None)
    ensures !r.listening ==> s.room.listening && s.backwards == Some(backwards)
    ensures s.room.delegate == r.delegate
  {
    if r.listening then Started(r, None)
    else Started(r.(listening := true), Some(backwards))
  }

  /** `stop_live_event_listener`: clear the flag, whatever it was. */
  function StopListener(r: Room): (r': Room)
    ensures !r'.listening && r'.delegate == r.delegate
  {
    r.(listening := false)
  }

  /** A second start without an intervening stop is refused and changes nothing. */
  lemma StartTwiceRefused<B>(r: Room, b1: B, b2: B)
    ensures var s1 := StartListener(r, b1);
            var s2 := StartListener(s1.room, b2);
            s2.backwards.None? && s2.room == s1.room
  {
  }

  /** Stopping is idempotent, and after it the listener can be started again. */
  lemma StopThenStart<B>(r: Room, b: B)
    ensures StopListener(StopListener(r)) == StopListener(r)
    ensures StartListener(StopListener(r), b).backwards == Some(b)
  {
  }

  /** What the forwarding task sees when it pulls one event off the live stream:
      the event, the flag as it reads it, and the delegate slot as it reads it. */
  datatype Pull<E> = Pull(event: E, listening: bool, delegate: Option<Delegate>)

  /** One call of `did_receive_message`. */
  datatype Delivery<M> = Delivery(to: Delegate, message: M)

  /** What the forwarding task does with one pulled event it has not been
      cancelled on: hand the decoded message to the delegate, if there is a
      delegate and the event decodes. */
  function Deliver<E, M>(decode: E -> Option<M>, p: Pull<E>): Option<Delivery<M>>
  {
    match p.delegate
    case None => None
    case Some(d) =>
      match decode(p.event)
      case None => None
      case Some(m) => Some(Delivery(d, m))
  }

  /** The forwarding task's run over the events it pulls. */
  datatype ListenerRun<M> = ListenerRun(delivered: seq<Delivery<M>>, pulled: nat, cancelled: bool)

  /** How many leading pulls saw the flag set. */
  function LivePrefix<E>(pulls: seq<Pull<E>>): (n: nat)
    ensures n <= |pulls|
    ensures forall i :: 0 <= i < n ==> pulls[i].listening
    ensures n < |pulls| ==> !pulls[n].listening
  {
    if |pulls| == 0 || !pulls[0].listening then 0 else 1 + LivePrefix(pulls[1..])
  }

  /** The loop that drains the live stream, over the events
      the stream yields before it ends. The loop returns at the first event it
      pulls with the flag cleared, without delivering it. */
  function Forward<E, M>(pulls: seq<Pull<E>>, decode: E -> Option<M>): (r: ListenerRun<M>)
    ensures r.cancelled <==> LivePrefix(pulls) < |pulls|
    ensures r.pulled == if r.cancelled then LivePrefix(pulls) + 1 else |pulls|
    ensures |r.delivered| <= LivePrefix(pulls)
  {
    if |pulls| == 0 then ListenerRun([], 0, false)
    else if !pulls[0].listening then ListenerRun([], 1, true)
    else
      var rest := Forward(pulls[1..], decode);
      var now := match Deliver(decode, pulls[0]) case Some(m) => [m] case None => [];
      ListenerRun(now + rest.delivered, rest.pulled + 1, rest.cancelled)
  }

  /** The deliveries are exactly the `filter_map` of the pulls made before
      cancellation: nothing from the cancelling pull or after it, nothing out of
      order, nothing buffered. */
  lemma {:induction false} ForwardIsFilterMap<E, M>(pulls: seq<Pull<E>>, decode: E -> Option<M>)
    ensures Forward(pulls, decode).delivered ==
            FilterMap(pulls[..LivePrefix(pulls)], p => Deliver(decode, p))
  {
    if |pulls| > 0 && pulls[0].listening {
      ForwardIsFilterMap(pulls[1..], decode);
      assert pulls[..LivePrefix(pulls)][1..] == pulls[1..][..LivePrefix(pulls[1..])];
    }
  }

  /** Events pulled after the flag was seen cleared are never delivered:
      whatever follows a cancelling pull, the run is the same. */
  lemma {:induction false} CancelledIgnoresRest<E, M>(pulls: seq<Pull<E>>, more: seq<Pull<E>>,
                                                         decode: E -> Option<M>)
    requires LivePrefix(pulls) < |pulls|
    ensures Forward(pulls + more, decode) == Forward(pulls, decode)
  {
    assert (pulls + more)[0] == pulls[0];
    if pulls[0].listening {
      assert (pulls + more)[1..] == pulls[1..] + more;
      CancelledIgnoresRest(pulls[1..], more, decode);
    }
  }

  /** An event pulled while no delegate is set is consumed and dropped, not
      queued: the run delivers what it would have delivered without that event. */
  lemma DroppedWithoutDelegate<E, M>(pulls: seq<Pull<E>>, i: nat, decode: E -> Option<M>)
    requires i < LivePrefix(pulls) && pulls[i].delegate.None?
    ensures Forward(pulls, decode).delivered ==
            Forward(pulls[..i] + pulls[i + 1..], decode).delivered
  {
    var f := p => Deliver(decode, p);
    var rest := pulls[..i] + pulls[i + 1..];
    var n := LivePrefix(pulls);
    var live := pulls[..n];
    LivePrefixDrop(pulls, i);
    ForwardIsFilterMap(pulls, decode);
    ForwardIsFilterMap(rest, decode);
    assert f(live[i]).None?;
    FilterMapSkipsRejected(live, i, f);
    assert live[..i] == pulls[..i];
    assert live[i + 1..] == pulls[i + 1..n];
    assert rest[..n - 1] == pulls[..i] + pulls[i + 1..n];
  }

  lemma {:induction false} LivePrefixDrop<E>(pulls: seq<Pull<E>>, i: nat)
    requires i < LivePrefix(pulls)
    ensures LivePrefix(pulls[..i] + pulls[i + 1..]) == LivePrefix(pulls) - 1
  {
    if i > 0 {
      var rest := pulls[..i] + pulls[i + 1..];
      assert rest[0] == pulls[0];
      assert rest[1..] == pulls[1..][..i - 1] + pulls[1..][i..];
      LivePrefixDrop(pulls[1..], i - 1);
    } else {
      assert pulls[..i] + pulls[i + 1..] == pulls[1..];
    }
  }

  /** Things that happen while a listener task is running: the task pulls the
      next live event, or the foreign side stops or starts the listener or
      replaces the delegate. */
  datatype Action<E> = NextEvent(event: E) | CallStop | CallStart | CallSetDelegate(delegate: Option<Delegate>)

  /** The room after one foreign call (a pull leaves it alone). The backwards
      handle a start returns plays no part here. */
  function Apply<E>(r: Room, a: Action<E>): Room
  {
    match a
    case NextEvent(_) => r
    case CallStop => StopListener(r)
    case CallStart => StartListener(r, ()).room
    case CallSetDelegate(d) => SetDelegate(r, d)
  }

  /** The room after a schedule of actions. */
  function After<E>(r: Room, actions: seq<Action<E>>): (r': Room)
    ensures CallStart !in actions ==> r'.listening == (r.listening && CallStop !in actions)
    decreases |actions|
  {
    if |actions| == 0 then r else After(Apply(r, actions[0]), actions[1..])
  }

  /** The events a schedule offers the task, in schedule order. */
  function EventsOf<E>(actions: seq<Action<E>>): (events: seq<E>)
    ensures |events| <= |actions|
    ensures forall k :: 0 <= k < |events| ==> NextEvent(events[k]) in actions
    decreases |actions|
  {
    if |actions| == 0 then []
    else match actions[0]
      case NextEvent(e) => [e] + EventsOf(actions[1..])
      case _ => EventsOf(actions[1..])
  }

  /** As written: the pulls one task makes along a schedule, each reading the
      room's shared flag as the earlier actions left it. A start after a stop
      sets that flag again, for the old task as much as for the new one. */
  function ObserveAsWritten<E>(r: Room, actions: seq<Action<E>>): (pulls: seq<Pull<E>>)
    ensures |pulls| == |EventsOf(actions)|
    decreases |actions|
  {
    if |actions| == 0 then []
    else match actions[0]
      case NextEvent(e) => [Pull(e, r.listening, r.delegate)] + ObserveAsWritten(r, actions[1..])
      case _ => ObserveAsWritten(Apply(r, actions[0]), actions[1..])
  }

  /** The pulls one task makes along a schedule when it polls a cancellation
      token of its own: `live` until the first stop after it was spawned,
      whatever starts follow; the delegate slot is still the room's. */
  function Observe<E>(r: Room, live: bool, actions: seq<Action<E>>): (pulls: seq<Pull<E>>)
    ensures |pulls| == |EventsOf(actions)|
    decreases |actions|
  {
    if |actions| == 0 then []
    else match actions[0]
      case NextEvent(e) => [Pull(e, live, r.delegate)] + Observe(r, live, actions[1..])
      case CallStop => Observe(Apply(r, actions[0]), false, actions[1..])
      case _ => Observe(Apply(r, actions[0]), live, actions[1..])
  }

  /** The schedule's events are its `NextEvent` payloads filtered out of it, so
      `Kept` locates them in the schedule. */
  lemma {:induction false} EventsOfIsFilterMap<E>(actions: seq<Action<E>>)
    ensures EventsOf(actions) == FilterMap(actions, (a: Action<E>) => if a.NextEvent? then Some(a.event) else None)
    decreases |actions|
  {
    if |actions| > 0 {
      EventsOfIsFilterMap(actions[1..]);
    }
  }

  /** The task pulls exactly the events the schedule offers, in schedule order,
      whatever stops, starts and delegate changes come between them. */
  lemma {:induction false} ObserveAsWrittenCarriesEvents<E>(r: Room, actions: seq<Action<E>>)
    ensures forall k :: 0 <= k < |ObserveAsWritten(r, actions)| ==>
              ObserveAsWritten(r, actions)[k].event == EventsOf(actions)[k]
    decreases |actions|
  {
    if |actions| > 0 {
      ObserveAsWrittenCarriesEvents(Apply(r, actions[0]), actions[1..]);
      ObserveAsWrittenCarriesEvents(r, actions[1..]);
    }
  }

  /** The same for a task polling its own token. */
  lemma {:induction false} ObserveCarriesEvents<E>(r: Room, live: bool, actions: seq<Action<E>>)
    ensures forall k :: 0 <= k < |Observe(r, live, actions)| ==>
              Observe(r, live, actions)[k].event == EventsOf(actions)[k]
    decreases |actions|
  {
    if |actions| > 0 {
      ObserveCarriesEvents(Apply(r, actions[0]), false, actions[1..]);
      ObserveCarriesEvents(Apply(r, actions[0]), live, actions[1..]);
      ObserveCarriesEvents(r, live, actions[1..]);
    }
  }

  /** As written, an event pulled after a schedule carries the room's flag and
      delegate as that schedule left them. */
  lemma {:induction false} ObserveAsWrittenSnoc<E>(r: Room, a: seq<Action<E>>, e: E)
    ensures ObserveAsWritten(r, a + [NextEvent(e)]) ==
            ObserveAsWritten(r, a) + [Pull(e, After(r, a).listening, After(r, a).delegate)]
    decreases |a|
  {
    var n: seq<Action<E>> := [NextEvent(e)];
    if |a| == 0 {
      assert a + n == n;
      assert n[1..] == [];
    } else {
      assert (a + n)[0] == a[0];
      assert (a + n)[1..] == a[1..] + n;
      ObserveAsWrittenSnoc(Apply(r, a[0]), a[1..], e);
      if a[0].NextEvent? {
        assert Apply(r, a[0]) == r;
      }
    }
  }

  /** With a task-owned token, an event pulled after a schedule carries `live`
      unless the schedule held a stop, and the delegate the schedule left. */
  lemma ObserveSnoc<E>(r: Room, live: bool, a: seq<Action<E>>, e: E)
    ensures Observe(r, live, a + [NextEvent(e)]) ==
            Observe(r, live, a) + [Pull(e, live && CallStop !in a, After(r, a).delegate)]
  {
    var n: seq<Action<E>> := [NextEvent(e)];
    ObserveAppend(r, live, a, n);
    assert n[1..] == [];
  }

  /** Without a restart the two readings agree: the task's own token is the
      room's flag. */
  lemma {:induction false} ObserveAgreesWithoutRestart<E>(r: Room, actions: seq<Action<E>>)
    requires CallStart !in actions
    ensures Observe(r, r.listening, actions) == ObserveAsWritten(r, actions)
    decreases |actions|
  {
    if |actions| > 0 {
      assert CallStart !in actions[1..] by {
        assert forall k :: 0 <= k < |actions[1..]| ==> actions[1..][k] == actions[k + 1];
      }
      ObserveAgreesWithoutRestart(Apply(r, actions[0]), actions[1..]);
    }
  }

  /** The stopped task is revived by a restart: after stop then start, the old
      task still delivers the next event, and so does the task the start
      spawned, so the delegate gets it twice. With a task-owned token the old
      task delivers nothing. */
  lemma RestartRevivesStoppedTask<E, M>(d: Delegate, e: E, m: M, decode: E -> Option<M>)
    requires decode(e) == Some(m)
    ensures var r := Room(true, Some(d));
            var schedule := [CallStop, CallStart, NextEvent(e)];
            && Forward(ObserveAsWritten(r, schedule), decode).delivered == [Delivery(d, m)]
            && Forward(ObserveAsWritten(After(r, schedule[..2]), schedule[2..]), decode).delivered
                 == [Delivery(d, m)]
            && Forward(Observe(r, true, schedule), decode).delivered == []
  {
    var r := Room(true, Some(d));
    var schedule := [CallStop, CallStart, NextEvent(e)];
    var restarted := Room(true, Some(d));
    var stoppedRoom := Room(false, Some(d));
    assert After(r, schedule[..2]) == restarted by {
      var two := schedule[..2];
      assert two[0] == CallStop && two[1..] == [CallStart];
      assert Apply(r, two[0]) == stoppedRoom;
      assert Apply(stoppedRoom, two[1..][0]) == restarted;
      assert two[1..][1..] == [];
      assert After(restarted, two[1..][1..]) == restarted;
      assert After(stoppedRoom, two[1..]) == After(restarted, two[1..][1..]);
      assert After(r, two) == After(stoppedRoom, two[1..]);
    }
    var pull := [Pull(e, true, Some(d))];
    assert ObserveAsWritten(restarted, schedule[2..]) == pull by {
      assert schedule[2..][1..] == [];
    }
    assert ObserveAsWritten(r, schedule) == pull by {
      assert schedule[1..] == [CallStart, NextEvent(e)];
      assert schedule[1..][1..] == schedule[2..];
    }
    assert Forward(pull, decode).delivered == [Delivery(d, m)] by {
      assert pull[1..] == [];
    }
    assert Observe(r, true, schedule) == [Pull(e, false, Some(d))] by {
      assert schedule[1..] == [CallStart, NextEvent(e)];
      assert Observe(r, true, schedule) == Observe(stoppedRoom, false, schedule[1..]);
      assert schedule[1..][1..] == schedule[2..];
      assert Observe(stoppedRoom, false, schedule[1..]) == Observe(restarted, false, schedule[2..]);
      assert schedule[2..] == [NextEvent(e)];
      assert schedule[2..][1..] == [];
    }
  }

  lemma {:induction false} ObserveAppend<E>(r: Room, live: bool, a: seq<Action<E>>, b: seq<Action<E>>)
    ensures Observe(r, live, a + b) == Observe(r, live, a) + Observe(After(r, a), live && CallStop !in a, b)
    decreases |a|
  {
    if |a| == 0 {
      assert a + b == b;
    } else {
      assert (a + b)[0] == a[0];
      assert (a + b)[1..] == a[1..] + b;
      assert CallStop in a <==> a[0] == CallStop || CallStop in a[1..] by {
        assert a == [a[0]] + a[1..];
      }
      ObserveAppend(Apply(r, a[0]), if a[0] == CallStop then false else live, a[1..], b);
    }
  }

  /** Once the task's token is cleared, every later pull sees it cleared. */
  lemma {:induction false} ObserveStopped<E>(r: Room, actions: seq<Action<E>>)
    ensures forall k :: 0 <= k < |Observe(r, false, actions)| ==> !Observe(r, false, actions)[k].listening
    decreases |actions|
  {
    if |actions| > 0 {
      ObserveStopped(Apply(r, actions[0]), actions[1..]);
    }
  }

  lemma {:induction false} LivePrefixThenDead<E>(p: seq<Pull<E>>, q: seq<Pull<E>>)
    requires forall k :: 0 <= k < |q| ==> !q[k].listening
    ensures LivePrefix(p + q) == LivePrefix(p)
  {
    if |p| == 0 {
      assert p + q == q;
    } else {
      assert (p + q)[0] == p[0];
      assert (p + q)[1..] == p[1..] + q;
      LivePrefixThenDead(p[1..], q);
    }
  }

  /** Along a schedule with a stop in it, the task's pulls are those made
      before the stop followed by those of a task whose token is cleared. */
  lemma ObserveAcrossStop<E>(r: Room, live: bool, before: seq<Action<E>>, after: seq<Action<E>>)
    ensures Observe(r, live, before + [CallStop] + after) ==
            Observe(r, live, before) + Observe(After(r, before + [CallStop]), false, after)
  {
    var stop: seq<Action<E>> := [CallStop];
    var stopped := before + stop;
    ObserveAppend(r, live, stopped, after);
    ObserveAppend(r, live, before, stop);
    assert Observe(After(r, before), live && CallStop !in before, stop) == [] by {
      assert |stop[1..]| == 0;
    }
    assert CallStop in stopped by {
      assert stopped[|before|] == CallStop;
    }
  }

  /** Cooperative cancellation: after `stop_live_event_listener`, nothing more
      reaches the delegate from the stopped task, and it pulls at most one more
      event, whatever calls (restarts included) follow. */
  lemma StopCancels<E, M>(r: Room, live: bool, before: seq<Action<E>>, after: seq<Action<E>>,
                          decode: E -> Option<M>)
    ensures var all := Forward(Observe(r, live, before + [CallStop] + after), decode);
            var upTo := Forward(Observe(r, live, before), decode);
            && all.delivered == upTo.delivered
            && all.pulled <= |Observe(r, live, before)| + 1
  {
    var p := Observe(r, live, before);
    var q := Observe(After(r, before + [CallStop]), false, after);
    ObserveAcrossStop(r, live, before, after);
    ObserveStopped(After(r, before + [CallStop]), after);
    LivePrefixThenDead(p, q);
    ForwardIsFilterMap(p + q, decode);
    ForwardIsFilterMap(p, decode);
    assert (p + q)[..LivePrefix(p)] == p[..LivePrefix(p)];
  }

  /** The schedule in which the task only pulls the given events. */
  function Pulling<E>(events: seq<E>): (actions: seq<Action<E>>)
    ensures |actions| == |events|
    ensures forall k :: 0 <= k < |events| ==> actions[k] == NextEvent(events[k])
  {
    seq(|events|, k requires 0 <= k < |events| => NextEvent(events[k]))
  }

  /** Every message sent to delegate `d`, in the given order. */
  function ToDelegate<M>(d: Delegate, messages: seq<M>): seq<Delivery<M>>
  {
    seq(|messages|, k requires 0 <= k < |messages| => Delivery(d, messages[k]))
  }

  /** The pulls of a task that sees the same token and delegate throughout. */
  function Steady<E>(events: seq<E>, live: bool, delegate: Option<Delegate>): (pulls: seq<Pull<E>>)
    ensures |pulls| == |events|
    ensures forall k :: 0 <= k < |events| ==> pulls[k] == Pull(events[k], live, delegate)
  {
    seq(|events|, k requires 0 <= k < |events| => Pull(events[k], live, delegate))
  }

  /** A schedule of pulls alone leaves the room as it is, so every pull sees the
      token and the delegate the task started with. */
  lemma {:induction false} ObservePulling<E>(r: Room, live: bool, events: seq<E>)
    ensures Observe(r, live, Pulling(events)) == Steady(events, live, r.delegate)
  {
    if |events| > 0 {
      var acts := Pulling(events);
      assert acts[0] == NextEvent(events[0]);
      assert acts[1..] == Pulling(events[1..]);
      ObservePulling(r, live, events[1..]);
      assert Steady(events, live, r.delegate) ==
             [Pull(events[0], live, r.delegate)] + Steady(events[1..], live, r.delegate);
    }
  }

  lemma {:induction false} ForwardSteady<E, M>(d: Delegate, events: seq<E>, decode: E -> Option<M>)
    ensures Forward(Steady(events, true, Some(d)), decode).delivered == ToDelegate(d, FilterMap(events, decode))
  {
    if |events| > 0 {
      var pulls := Steady(events, true, Some(d));
      assert pulls[1..] == Steady(events[1..], true, Some(d));
      ForwardSteady(d, events[1..], decode);
      var head := match decode(events[0]) case Some(m) => [m] case None => [];
      assert ToDelegate(d, head + FilterMap(events[1..], decode)) ==
             ToDelegate(d, head) + ToDelegate(d, FilterMap(events[1..], decode));
    }
  }

  /** Order preservation and skip-on-failure: with the listener running and a
      delegate set throughout, the delegate receives exactly the events that
      decode, each once, in stream order. */
  lemma ForwardsDecodedInOrder<E, M>(d: Delegate, events: seq<E>, decode: E -> Option<M>)
    ensures Forward(Observe(Room(true, Some(d)), true, Pulling(events)), decode).delivered ==
            ToDelegate(d, FilterMap(events, decode))
  {
    ObservePulling(Room(true, Some(d)), true, events);
    ForwardSteady(d, events, decode);
  }

  /** The same order preservation for the listener as written: without a
      restart the shared flag and a task-owned token agree. */
  lemma ForwardsDecodedInOrderAsWritten<E, M>(d: Delegate, events: seq<E>, decode: E -> Option<M>)
    ensures Forward(ObserveAsWritten(Room(true, Some(d)), Pulling(events)), decode).delivered ==
            ToDelegate(d, FilterMap(events, decode))
  {
    assert CallStart !in Pulling(events);
    ObserveAgreesWithoutRestart(Room(true, Some(d)), Pulling(events));
    ForwardsDecodedInOrder(d, events, decode);
  }
}

=== FILE: room_futures.dfy ===
/** `SendAttachment`, the future `Room::send_attachment` returns
    (crates/matrix-sdk/src/room/futures.rs): which attachment, config and
    thumbnail it hands to `prepare_and_send_attachment`.

    The room, the upload-progress observable and the attachment info are
    carried through untouched, so they are type parameters. Thumbnail
    generation is a parameter; whether the crate was built with the
    `image-proc` feature is a boolean. */
module RoomFutures {
  import opened Wrappers

  type Bytes = seq<bv8>

  /** A MIME type, by its essence string. */
  datatype Mime = Mime(essence: string)

  /** `mime::IMAGE_JPEG`. */
  const ImageJpeg: Mime := Mime("image/jpeg")

  /** The size a generated thumbnail should fit in. */
  datatype ThumbnailSize = ThumbnailSize(width: nat, height: nat)

  /** What thumbnail generation reports about the image it produced. */
  datatype ThumbnailInfo = ThumbnailInfo(height: Option<nat>, width: Option<nat>, size: Option<nat>)

  /** `Thumbnail`. */
  datatype Thumbnail = Thumbnail(data: Bytes, contentType: Mime, info: Option<ThumbnailInfo>)

  /** `ImageError`: the two variants the future tolerates, and every other one. */
  datatype ImageError = ThumbnailBiggerThanOriginal | FormatNotSupported | OtherImageError(detail: string)

  /** `AttachmentConfig`. The last two fields exist only with `image-proc`. */
  datatype AttachmentConfig<I> = AttachmentConfig(
    txnId: Option<string>,
    info: Option<I>,
    thumbnail: Option<Thumbnail>,
    generateThumbnail: bool,
    thumbnailSize: Option<ThumbnailSize>)

  /** The future's fields (the tracing span left out). */
  datatype SendAttachment<R, P, I> = SendAttachment(
    room: R, body: string, contentType: Mime, data: Bytes,
    config: AttachmentConfig<I>, sendProgress: P)

  /** What awaiting the future does: call `prepare_and_send_attachment` with
      these arguments, or return an error without sending. */
  datatype Outcome<R, P, I> =
    | Send(room: R, body: string, contentType: Mime, data: Bytes, config: AttachmentConfig<I>, sendProgress: P)
    | Fail(error: ImageError)

  /** `generate_image_thumbnail(content_type, data, size)`. */
  type Generator = (Mime, Bytes, Option<ThumbnailSize>) -> Result<(Bytes, ThumbnailInfo), ImageError>

  /** `SendAttachment::new`: upload progress starts on `defaultProgress`, the
      observable `Default::default()` makes. */
  function NewSendAttachment<R, P, I>(room: R, body: string, contentType: Mime, data: Bytes,
                                      config: AttachmentConfig<I>, defaultProgress: P): (sa: SendAttachment<R, P, I>)
    ensures sa.room == room && sa.body == body && sa.contentType == contentType
    ensures sa.data == data && sa.config == config && sa.sendProgress == defaultProgress
  {
    SendAttachment(room, body, contentType, data, config, defaultProgress)
  }

  /** `with_send_progress_observable`: replaces the progress observable and
      nothing else. */
  function WithSendProgressObservable<R, P, I>(sa: SendAttachment<R, P, I>, progress: P): (sa': SendAttachment<R, P, I>)
    ensures sa'.sendProgress == progress
    ensures sa'.room == sa.room && sa'.body == sa.body && sa'.contentType == sa.contentType
    ensures sa'.data == sa.data && sa'.config == sa.config
  {
    sa.(sendProgress := progress)
  }

  /** Thumbnail errors after which the attachment is still sent, without a thumbnail. */
  predicate Tolerated(e: ImageError)
  {
    e == ThumbnailBiggerThanOriginal || e == FormatNotSupported
  }

  /** The `make_thumbnail` closure: it hands back the data it was given along
      with the generator's result. */
  function MakeThumbnail(generate: Generator, contentType: Mime, size: Option<ThumbnailSize>, data: Bytes)
    : (Bytes, Result<(Bytes, ThumbnailInfo), ImageError>)
  {
    (data, generate(contentType, data, size))
  }

  /** The config the future rebuilds when the caller gave no thumbnail. */
  function Rewrite<I>(config: AttachmentConfig<I>, thumbnail: Option<Thumbnail>): AttachmentConfig<I>
  {
    AttachmentConfig(config.txnId, config.info, thumbnail, false, None)
  }

  /** The result of generation a send proceeds with, when there is no
      caller-supplied thumbnail. */
  function ChooseThumbnail<I>(imageProc: bool, generate: Generator, contentType: Mime,
                              config: AttachmentConfig<I>, data: Bytes): Result<(Bytes, Option<Thumbnail>), ImageError>
  {
    if !imageProc || !config.generateThumbnail then Success((data, None))
    else
      var (data', res) := MakeThumbnail(generate, contentType, config.thumbnailSize, data);
      match res
      case Success((thumbnailData, thumbnailInfo)) =>
        Success((data', Some(Thumbnail(thumbnailData, ImageJpeg, Some(thumbnailInfo)))))
      case Failure(e) =>
        if Tolerated(e) then Success((data', None)) else Failure(e)
  }

  /** `into_future`, awaited. */
  function IntoFuture<R, P, I>(sa: SendAttachment<R, P, I>, imageProc: bool, generate: Generator): (o: Outcome<R, P, I>)
    // A caller-supplied thumbnail: everything is sent as given.
    ensures sa.config.thumbnail.Some? ==>
              o == Send(sa.room, sa.body, sa.contentType, sa.data, sa.config, sa.sendProgress)
    // Whatever is sent goes to the same room, with the same body, content type,
    // progress observable and the original bytes.
    ensures o.Send? ==> o.room == sa.room && o.body == sa.body && o.contentType == sa.contentType
                        && o.data == sa.data && o.sendProgress == sa.sendProgress
    // A rebuilt config keeps the transaction id and info and asks for no more generation.
    ensures sa.config.thumbnail.None? && o.Send? ==>
              && o.config.txnId == sa.config.txnId && o.config.info == sa.config.info
              && !o.config.generateThumbnail && o.config.thumbnailSize.None?
    // No generation (not asked for, or not compiled in): sent without a thumbnail.
    ensures sa.config.thumbnail.None? && (!imageProc || !sa.config.generateThumbnail) ==>
              o.Send? && o.config.thumbnail.None?
    // Generation runs on the original bytes, content type and requested size.
    ensures sa.config.thumbnail.None? && imageProc && sa.config.generateThumbnail ==>
              var res := generate(sa.contentType, sa.data, sa.config.thumbnailSize);
              && (res.Success? ==> o.Send? && o.config.thumbnail ==
                                     Some(Thumbnail(res.value.0, ImageJpeg, Some(res.value.1))))
              && (res.Failure? && Tolerated(res.error) ==> o.Send? && o.config.thumbnail.None?)
              && (res.Failure? && !Tolerated(res.error) ==> o == Fail(res.error))
    // Only an intolerable generation error stops the send.
    ensures o.Fail? ==> sa.config.thumbnail.None? && imageProc && sa.config.generateThumbnail
                        && !Tolerated(o.error)
  {
    if sa.config.thumbnail.Some? then
      Send(sa.room, sa.body, sa.contentType, sa.data, sa.config, sa.sendProgress)
    else
      match ChooseThumbnail(imageProc, generate, sa.contentType, sa.config, sa.data)
      case Failure(e) => Fail(e)
      case Success((data, thumbnail)) =>
        Send(sa.room, sa.body, sa.contentType, data, Rewrite(sa.config, thumbnail), sa.sendProgress)
  }

  /** The config the future sends is settled: sending the same attachment again
      with it sends exactly the same thing, whatever the generator and feature
      set, and never fails. */
  lemma SentConfigIsSettled<R, P, I>(sa: SendAttachment<R, P, I>, imageProc: bool, generate: Generator,
                                     imageProc': bool, generate': Generator)
    requires IntoFuture(sa, imageProc, generate).Send?
    ensures var o := IntoFuture(sa, imageProc, generate);
            IntoFuture(sa.(config := o.config), imageProc', generate') == o
  {
  }

  /** Replacing the progress observable changes nothing about the send but the
      observable it reports to. */
  lemma ProgressOnlyAffectsProgress<R, P, I>(sa: SendAttachment<R, P, I>, progress: P,
                                             imageProc: bool, generate: Generator)
    ensures var o := IntoFuture(sa, imageProc, generate);
            var o' := IntoFuture(WithSendProgressObservable(sa, progress), imageProc, generate);
            && o'.Send? == o.Send?
            && (o.Fail? ==> o' == o)
            && (o.Send? ==> o' == o.(sendProgress := progress))
  {
  }
}

=== FILE: sequences.dfy ===
/** Rust's `Iterator::filter_map`, collected into a sequence, with an independent
    characterisation by the indices of the elements it keeps. Both `Room::messages`
    and the live-event forwarding loop are instances of it. */
module Sequences {
  import opened Wrappers

  /** The values `f` yields, in input order, for the elements it does not reject. */
  function FilterMap<T, U>(xs: seq<T>, f: T -> Option<U>): (r: seq<U>)
    ensures |r| <= |xs|
  {
    if |xs| == 0 then []
    else (match f(xs[0]) case Some(u) => [u] case None => []) + FilterMap(xs[1..], f)
  }

  /** The indices of the elements `f` accepts, in increasing order. */
  function Kept<T, U>(xs: seq<T>, f: T -> Option<U>): (ix: seq<nat>)
    ensures forall k :: 0 <= k < |ix| ==> ix[k] < |xs| && f(xs[ix[k]]).Some?
    ensures forall k, l :: 0 <= k < l < |ix| ==> ix[k] < ix[l]
    ensures forall i :: 0 <= i < |xs| && f(xs[i]).Some? ==> i in ix
  {
    if |xs| == 0 then []
    else
      var init := Kept(xs[..|xs| - 1], f);
      if f(xs[|xs| - 1]).Some? then init + [|xs| - 1] else init
  }

  /** Filtering a concatenation filters each part. */
  lemma {:induction false} FilterMapAppend<T, U>(a: seq<T>, b: seq<T>, f: T -> Option<U>)
    ensures FilterMap(a + b, f) == FilterMap(a, f) + FilterMap(b, f)
  {
    if |a| == 0 {
      assert a + b == b;
    } else {
      assert (a + b)[1..] == a[1..] + b;
      FilterMapAppend(a[1..], b, f);
    }
  }

  /** `FilterMap` yields exactly one value per kept index, in index order: the
      accepted elements, none dropped, none reordered, none invented. */
  lemma {:induction false} FilterMapIsKeptImage<T, U>(xs: seq<T>, f: T -> Option<U>)
    ensures |FilterMap(xs, f)| == |Kept(xs, f)|
    ensures forall k :: 0 <= k < |Kept(xs, f)| ==>
              f(xs[Kept(xs, f)[k]]) == Some(FilterMap(xs, f)[k])
  {
    if |xs| > 0 {
      var n := |xs| - 1;
      var init := xs[..n];
      assert xs == init + [xs[n]];
      FilterMapAppend(init, [xs[n]], f);
      FilterMapIsKeptImage(init, f);
      assert FilterMap([xs[n]], f) == (match f(xs[n]) case Some(u) => [u] case None => []) by {
        assert [xs[n]][1..] == [];
      }
      var ix := Kept(xs, f);
      var r := FilterMap(xs, f);
      forall k | 0 <= k < |ix|
        ensures f(xs[ix[k]]) == Some(r[k])
      {
        if k < |Kept(init, f)| {
          assert xs[ix[k]] == init[ix[k]];
        }
      }
    }
  }

  /** Elements `f` rejects contribute nothing: removing one does not change the result. */
  lemma {:induction false} FilterMapSkipsRejected<T, U>(xs: seq<T>, i: nat, f: T -> Option<U>)
    requires i < |xs| && f(xs[i]).None?
    ensures FilterMap(xs, f) == FilterMap(xs[..i] + xs[i + 1..], f)
  {
    assert xs == xs[..i] + ([xs[i]] + xs[i + 1..]);
    FilterMapAppend(xs[..i], [xs[i]] + xs[i + 1..], f);
    FilterMapAppend([xs[i]], xs[i + 1..], f);
    assert ([xs[i]] + xs[i + 1..])[1..] == xs[i + 1..];
    FilterMapAppend(xs[..i], xs[i + 1..], f);
  }
}

=== FILE: session.dfy ===
/** Client construction and the restore token (crates/matrix-sdk-ffi/src/ios.rs).

    Everything the three construction flows ask of the outside world (URL
    parsing, creating the store directory, the homeserver's answers) is a
    field of `Platform`: the model fixes how the flows combine those answers,
    not what the answers are. `serde_json` is an encoder/decoder pair passed in
    by the caller; only the round-trip law is assumed of it, and only where it
    is needed. */
module Session {
  import opened Wrappers
  import opened SyncState

  /** `matrix_sdk::Session`, the credentials a client is logged in with. */
  datatype Credentials = Credentials(accessToken: string, userId: string, deviceId: string)

  /** `RestoreToken`: what a serialised session carries. */
  datatype RestoreToken = RestoreToken(isGuest: bool, homeUrl: string, session: Credentials)

  /** A client handle: the engine connection (its homeserver and, once logged
      in, its session) plus the handle's own `ClientState`. */
  datatype Client = Client(homeserver: string, session: Option<Credentials>, state: ClientState)

  /** The server's answer to a guest registration. */
  datatype Registration = Registration(accessToken: Option<string>, userId: string, deviceId: Option<string>)

  /** The step a construction flow failed at. The source folds all of them into
      one `anyhow::Error` carrying a message. */
  datatype Failure =
    | MalformedToken         // serde_json::from_str
    | InvalidUrl             // Url::parse
    | StorageUnavailable     // new_client_config: create_dir_all or the store
    | ConnectFailed          // MatrixClient::new_with_config / new_from_user_id_with_config
    | RegistrationRejected   // client.register
    | RestoreRejected        // client.restore_login
    | InvalidUserId          // UserId::try_from
    | LoginRejected          // client.login

  /** The outcomes of every call a construction flow makes outside this model. */
  datatype Platform = Platform(
    urlParses: string -> bool,                        // Url::parse(url).is_ok()
    storageReady: (string, string) -> bool,           // new_client_config(base_path, label).is_ok()
    connects: string -> bool,                         // new_with_config(homeserver, ..).is_ok()
    register: string -> Option<Registration>,         // guest registration on a homeserver
    restores: (string, Credentials) -> bool,          // restore_login(session).is_ok()
    userIdParses: string -> bool,                     // UserId::try_from(username).is_ok()
    discover: string -> Option<string>,               // homeserver found for a user id
    login: (string, string, string) -> Option<Credentials>) // password login: homeserver, user, password

  /** `Client::new`: wrap a logged-in connection with a fresh state. */
  function NewClient(homeserver: string, session: Credentials, isGuest: bool): (c: Client)
    ensures c.session == Some(session) && c.homeserver == homeserver
    ensures c.state.isGuest == isGuest
    ensures !c.state.hasFirstSynced && !c.state.isSyncing && !c.state.shouldStopSyncing
  {
    Client(homeserver, Some(session), NewState(isGuest))
  }

  /** The `expect`s in `guest_client`: a guest registration, if it succeeds,
      carries an access token and a device id. */
  predicate GuestRegistrationComplete(p: Platform, homeUrl: string)
  {
    p.register(homeUrl).Some? ==>
      p.register(homeUrl).value.accessToken.Some? && p.register(homeUrl).value.deviceId.Some?
  }

  /** The session `guest_client` builds from a complete registration. */
  function GuestSession(reg: Registration): Credentials
    requires reg.accessToken.Some? && reg.deviceId.Some?
  {
    Credentials(reg.accessToken.value, reg.userId, reg.deviceId.value)
  }

  /** `guest_client`: register a guest on `homeUrl` and log in with the
      credentials the server hands out. */
  function GuestClient(p: Platform, basePath: string, homeUrl: string): (r: Result<Client, Failure>)
    requires p.urlParses(homeUrl) && p.storageReady(basePath, homeUrl) && p.connects(homeUrl) ==>
               GuestRegistrationComplete(p, homeUrl)
    ensures r.Success? ==> r.value.state == NewState(true) && r.value.homeserver == homeUrl
    ensures r.Success? <==>
              && p.urlParses(homeUrl) && p.storageReady(basePath, homeUrl) && p.connects(homeUrl)
              && p.register(homeUrl).Some?
              && p.restores(homeUrl, GuestSession(p.register(homeUrl).value))
    ensures r.Success? ==> r.value.session == Some(GuestSession(p.register(homeUrl).value))
    ensures !p.urlParses(homeUrl) ==> r == Failure(InvalidUrl)
  {
    if !p.urlParses(homeUrl) then Failure(InvalidUrl)
    else if !p.storageReady(basePath, homeUrl) then Failure(StorageUnavailable)
    else if !p.connects(homeUrl) then Failure(ConnectFailed)
    else if p.register(homeUrl).None? then Failure(RegistrationRejected)
    else
      var session := GuestSession(p.register(homeUrl).value);
      if !p.restores(homeUrl, session) then Failure(RestoreRejected)
      else Success(NewClient(homeUrl, session, true))
  }

  /** `login_new_client`: log an existing user in with a password. The store
      directory, named after the raw user name, is prepared before the user
      name is checked. */
  function LoginNewClient(p: Platform, basePath: string, username: string, password: string): (r: Result<Client, Failure>)
    ensures r.Success? ==> r.value.state == NewState(false)
    ensures r.Success? <==>
              && p.storageReady(basePath, username) && p.userIdParses(username)
              && p.discover(username).Some?
              && p.login(p.discover(username).value, username, password).Some?
    ensures r.Success? ==>
              && r.value.homeserver == p.discover(username).value
              && r.value.session == p.login(p.discover(username).value, username, password)
    ensures !p.storageReady(basePath, username) ==> r == Failure(StorageUnavailable)
  {
    if !p.storageReady(basePath, username) then Failure(StorageUnavailable)
    else if !p.userIdParses(username) then Failure(InvalidUserId)
    else if p.discover(username).None? then Failure(ConnectFailed)
    else
      var homeserver := p.discover(username).value;
      match p.login(homeserver, username, password)
      case None => Failure(LoginRejected)
      case Some(session) => Success(NewClient(homeserver, session, false))
  }

  /** `restore_token`: snapshot the client's session, homeserver and guest flag.
      The source panics without a session, hence the precondition. */
  function RestoreTokenOf(c: Client, encode: RestoreToken -> string): (t: string)
    requires c.session.Some?
  {
    encode(RestoreToken(c.state.isGuest, c.homeserver, c.session.value))
  }

  /** `login_with_token`: decode a restore token and log back in with its
      session, without authenticating again. The store directory is named after
      the session's user id. */
  function LoginWithToken(p: Platform, basePath: string, token: string,
                          decode: string -> Option<RestoreToken>): (r: Result<Client, Failure>)
    ensures decode(token).None? ==> r == Failure(MalformedToken)
    ensures r.Success? <==>
              && decode(token).Some?
              && var t := decode(token).value;
                 && p.urlParses(t.homeUrl) && p.storageReady(basePath, t.session.userId)
                 && p.connects(t.homeUrl) && p.restores(t.homeUrl, t.session)
    ensures r.Success? ==>
              var t := decode(token).value;
              && r.value.state == NewState(t.isGuest)
              && r.value.homeserver == t.homeUrl
              && r.value.session == Some(t.session)
  {
    match decode(token)
    case None => Failure(MalformedToken)
    case Some(RestoreToken(isGuest, homeUrl, session)) =>
      if !p.urlParses(homeUrl) then Failure(InvalidUrl)
      else if !p.storageReady(basePath, session.userId) then Failure(StorageUnavailable)
      else if !p.connects(homeUrl) then Failure(ConnectFailed)
      else if !p.restores(homeUrl, session) then Failure(RestoreRejected)
      else Success(NewClient(homeUrl, session, isGuest))
  }

  /** The law assumed of serde_json for restore tokens. */
  ghost predicate RoundTrips(encode: RestoreToken -> string, decode: string -> Option<RestoreToken>)
  {
    forall t :: decode(encode(t)) == Some(t)
  }

  /** Restoring from a client's token yields a client with the same homeserver,
      the same session and the same guest flag, and a fresh sync state — no
      matter what the original client's sync state was. It fails only where the
      platform refuses the restore. */
  lemma TokenRoundTrip(p: Platform, basePath: string, c: Client,
                       encode: RestoreToken -> string, decode: string -> Option<RestoreToken>)
    requires c.session.Some?
    requires RoundTrips(encode, decode)
    ensures var r := LoginWithToken(p, basePath, RestoreTokenOf(c, encode), decode);
            && (r.Success? <==>
                  && p.urlParses(c.homeserver) && p.storageReady(basePath, c.session.value.userId)
                  && p.connects(c.homeserver) && p.restores(c.homeserver, c.session.value))
            && (r.Success? ==>
                  && r.value.homeserver == c.homeserver
                  && r.value.session == c.session
                  && r.value.state == NewState(c.state.isGuest))
  {
    var t := RestoreToken(c.state.isGuest, c.homeserver, c.session.value);
    assert decode(encode(t)) == Some(t);
  }

  /** The guest flag is fixed at construction and survives any number of
      restores: a guest stays a guest, a password user stays one. */
  lemma GuestFlagSurvivesRestore(p: Platform, basePath: string, c: Client, stops: seq<bool>,
                                 encode: RestoreToken -> string, decode: string -> Option<RestoreToken>)
    requires c.session.Some?
    requires RoundTrips(encode, decode)
    ensures var synced := c.(state := Run(c.state, stops).state);
            var r := LoginWithToken(p, basePath, RestoreTokenOf(synced, encode), decode);
            r.Success? ==> IsGuest(r.value.state) == IsGuest(c.state)
  {
    var synced := c.(state := Run(c.state, stops).state);
    TokenRoundTrip(p, basePath, synced, encode, decode);
  }
}

=== FILE: snapshot.dfy ===
/** `Room::messages` in crates/matrix-sdk-ffi/src/ios.rs: one page of room
    history, fetched forwards from the start, rendered as text.

    The page itself (`r.messages(..)`, which panics when no page comes back) is
    an input; deserialising an event and formatting a message are parameters. */
module Snapshot {
  import opened Wrappers
  import opened Sequences

  /** What deserialising a raw timeline event can give. */
  datatype Decoded<M> =
    | RoomMessage(message: M)   // AnyRoomEvent::Message(AnyMessageEvent::RoomMessage(m))
    | OtherEvent                // any other event kind: skipped
    | Malformed                 // a deserialisation error: skipped

  /** The per-event closure of the `filter_map`. */
  function Render<E, M>(deserialize: E -> Decoded<M>, format: M -> string, e: E): Option<string>
  {
    match deserialize(e)
    case RoomMessage(m) => Some(format(m))
    case _ => None
  }

  /** `Room::messages`: the formatted room messages of `chunk`, in chunk order. */
  function Messages<E, M>(chunk: seq<E>, deserialize: E -> Decoded<M>, format: M -> string): (r: seq<string>)
    ensures |r| <= |chunk|
  {
    FilterMap(chunk, e => Render(deserialize, format, e))
  }

  /** The indices of the chunk's events that are room messages, in order.
      This is deliberately stated in the room's own terms, as the reference
      `messages()` is checked against; `KeptAreMessages` shows it is the
      generic `Kept` of the rendering closure. */
  function MessageIndices<E, M>(chunk: seq<E>, deserialize: E -> Decoded<M>): (ix: seq<nat>)
    ensures forall k :: 0 <= k < |ix| ==> ix[k] < |chunk| && deserialize(chunk[ix[k]]).RoomMessage?
    ensures forall k, l :: 0 <= k < l < |ix| ==> ix[k] < ix[l]
    ensures forall i :: 0 <= i < |chunk| && deserialize(chunk[i]).RoomMessage? ==> i in ix
  {
    if |chunk| == 0 then []
    else
      var init := MessageIndices(chunk[..|chunk| - 1], deserialize);
      if deserialize(chunk[|chunk| - 1]).RoomMessage? then init + [|chunk| - 1] else init
  }

  lemma {:induction false} KeptAreMessages<E, M>(chunk: seq<E>, deserialize: E -> Decoded<M>, format: M -> string)
    ensures Kept(chunk, e => Render(deserialize, format, e)) == MessageIndices(chunk, deserialize)
  {
    if |chunk| > 0 {
      KeptAreMessages(chunk[..|chunk| - 1], deserialize, format);
    }
  }

  /** `messages()` returns exactly the room messages of the chunk, one string
      per message, in chunk order; other events and decode failures are
      skipped. */
  lemma MessagesAreRoomMessagesInOrder<E, M>(chunk: seq<E>, deserialize: E -> Decoded<M>, format: M -> string)
    ensures var r := Messages(chunk, deserialize, format);
            var ix := MessageIndices(chunk, deserialize);
            && |r| == |ix|
            && forall k :: 0 <= k < |ix| ==> r[k] == format(deserialize(chunk[ix[k]]).message)
  {
    var f := e => Render(deserialize, format, e);
    FilterMapIsKeptImage(chunk, f);
    KeptAreMessages(chunk, deserialize, format);
  }
}

=== FILE: sync_state.dfy ===
/** The session state of a client handle and the state machine the sync loop
    drives over it (crates/matrix-sdk-ffi/src/ios.rs).

    Every operation is modelled as atomic. In the source each field is read and
    written under its own lock acquisition, so a concurrent reader can observe a
    callback half-way (`has_first_synced` already true, `is_syncing` still
    false); that interleaving is not modelled. */
module SyncState {

  /** `ClientState`: four flags, all defaulting to false. */
  datatype ClientState = ClientState(
    isGuest: bool,
    hasFirstSynced: bool,
    isSyncing: bool,
    shouldStopSyncing: bool)

  /** `LoopCtrl`, the sync callback's verdict to the engine's sync loop. */
  datatype LoopCtrl = Continue | Break

  /** One invocation of the sync callback: the states the delegate observed when
      it was notified (one entry per notification), the state left behind, and
      the verdict. */
  datatype Cycle = Cycle(notifiedAt: seq<ClientState>, state: ClientState, ctrl: LoopCtrl)

  /** The state `ClientStateBuilder::default().is_guest(g).build()` produces:
      only `is_guest` is chosen by the caller. */
  function NewState(isGuest: bool): (s: ClientState)
    ensures s.isGuest == isGuest
    ensures !s.hasFirstSynced && !s.isSyncing && !s.shouldStopSyncing
  {
    ClientState(isGuest, false, false, false)
  }

  /** The body of the callback `start_sync` hands to `sync_with_callback`, run
      against state `s`: notify the delegate, mark the first sync, then either
      stop (clearing `is_syncing`) or continue (setting it). */
  function SyncStep(s: ClientState): (c: Cycle)
    ensures c.notifiedAt == [s]
    ensures c.state.hasFirstSynced
    ensures c.state.isGuest == s.isGuest && c.state.shouldStopSyncing == s.shouldStopSyncing
    ensures s.shouldStopSyncing ==> !c.state.isSyncing && c.ctrl == Break
    ensures !s.shouldStopSyncing ==> c.state.isSyncing && c.ctrl == Continue
  {
    var notified := [s];
    var s1 := if !s.hasFirstSynced then s.(hasFirstSynced := true) else s;
    if s1.shouldStopSyncing then Cycle(notified, s1.(isSyncing := false), Break)
    else if !s1.isSyncing then Cycle(notified, s1.(isSyncing := true), Continue)
    else Cycle(notified, s1, Continue)
  }

  /** A stop request from the foreign side. Nothing in the source sets
      `should_stop_syncing`; this is the model input that makes `Break` reachable. */
  function RequestStop(s: ClientState): (t: ClientState)
    ensures t.shouldStopSyncing
    ensures t.isGuest == s.isGuest && t.hasFirstSynced == s.hasFirstSynced && t.isSyncing == s.isSyncing
  {
    s.(shouldStopSyncing := true)
  }

  /** The outcome of running the sync loop: final state, callbacks run, delegate
      notifications made, and the verdict of the last callback (`Continue` also
      when the loop ran zero cycles). */
  datatype SyncRun = SyncRun(state: ClientState, cycles: nat, notified: nat, ctrl: LoopCtrl)

  /** The loop `start_sync` spawns, over a horizon of `|stops|` sync rounds.
      Before round `i` the foreign side requests a stop iff `stops[i]`. The loop
      ends at the first callback that returns `Break`. */
  function Run(s: ClientState, stops: seq<bool>): (r: SyncRun)
    ensures r.cycles <= |stops|
    ensures r.notified == r.cycles
    ensures r.state.isGuest == s.isGuest
    ensures r.cycles == 0 ==> r.state == s
    ensures r.cycles > 0 ==> r.state.hasFirstSynced
    ensures r.ctrl == Break ==> r.cycles > 0 && r.state.shouldStopSyncing && !r.state.isSyncing
    ensures r.ctrl == Continue ==> r.cycles == |stops| && (r.cycles > 0 ==> r.state.isSyncing)
    decreases |stops|
  {
    if |stops| == 0 then SyncRun(s, 0, 0, Continue)
    else
      var c := SyncStep(if stops[0] then RequestStop(s) else s);
      if c.ctrl == Break then
        SyncRun(c.state, 1, |c.notifiedAt|, Break)
      else
        var rest := Run(c.state, stops[1..]);
        SyncRun(rest.state, rest.cycles + 1, rest.notified + |c.notifiedAt|, rest.ctrl)
  }

  /** The loop breaks exactly when a stop was pending before it started or is
      requested within the horizon, and then at the first round that sees one;
      `should_stop_syncing` changes only through those requests. */
  lemma {:induction false} RunBreaksAtFirstStop(s: ClientState, stops: seq<bool>)
    ensures var r := Run(s, stops);
            && (r.ctrl == Break <==> |stops| > 0 && (s.shouldStopSyncing || true in stops))
            && r.state.shouldStopSyncing == (s.shouldStopSyncing || true in stops[..r.cycles])
            && (r.ctrl == Break && !s.shouldStopSyncing ==>
                  stops[r.cycles - 1] && true !in stops[..r.cycles - 1])
            && (r.ctrl == Break && s.shouldStopSyncing ==> r.cycles == 1)
    decreases |stops|
  {
    if |stops| > 0 {
      var c := SyncStep(if stops[0] then RequestStop(s) else s);
      assert stops == [stops[0]] + stops[1..];
      if c.ctrl == Break {
        assert stops[..1] == [stops[0]];
      } else {
        RunBreaksAtFirstStop(c.state, stops[1..]);
        var rest := Run(c.state, stops[1..]);
        assert stops[..rest.cycles + 1] == [stops[0]] + stops[1..][..rest.cycles];
      }
    }
  }

  /** `has_first_synced()`. */
  function HasFirstSynced(s: ClientState): bool
  {
    s.hasFirstSynced
  }

  /** `is_guest()`. */
  function IsGuest(s: ClientState): bool
  {
    s.isGuest
  }

  /** `is_syncing()` as written: it reads `has_first_synced`, not `is_syncing`,
      although its doc comment says "whether we are currently syncing". */
  function IsSyncingAsWritten(s: ClientState): (b: bool)
    ensures b == HasFirstSynced(s)
  {
    s.hasFirstSynced
  }

  /** `is_syncing()` as its doc comment describes it. */
  function IsSyncing(s: ClientState): bool
  {
    s.isSyncing
  }

  /** Every client whose sync loop has broken on a stop request still reports,
      as written, that it is syncing, while it is not. */
  lemma IsSyncingAsWrittenAfterStop(s: ClientState, stops: seq<bool>)
    requires Run(s, stops).ctrl == Break
    ensures IsSyncingAsWritten(Run(s, stops).state) && !IsSyncing(Run(s, stops).state)
  {
  }

  /** Without a stop request the two readings agree on every state the loop
      reaches from one where they already agree (a fresh client, say): the
      accessor as written only answers wrongly once something asks the loop to
      stop. */
  lemma IsSyncingAgreesWithoutStop(s: ClientState, stops: seq<bool>)
    requires !s.shouldStopSyncing && true !in stops && s.isSyncing == s.hasFirstSynced
    ensures IsSyncingAsWritten(Run(s, stops).state) == IsSyncing(Run(s, stops).state)
  {
    RunBreaksAtFirstStop(s, stops);
  }

  /** The corrected accessor reports the loop's activity: after a run of at least
      one round it is true exactly when the loop is still going. */
  lemma IsSyncingTracksLoop(s: ClientState, stops: seq<bool>)
    requires |stops| > 0
    ensures var r := Run(s, stops); IsSyncing(r.state) <==> r.ctrl == Continue
  {
  }

  /** Running the loop in two stretches is running it once, when the first
      stretch does not break; so `has_first_synced` never returns to false. */
  lemma {:induction false} RunComposes(s: ClientState, a: seq<bool>, b: seq<bool>)
    requires Run(s, a).ctrl == Continue
    ensures Run(s, a + b) == (var r := Run(Run(s, a).state, b);
                              SyncRun(r.state, |a| + r.cycles, |a| + r.notified, r.ctrl))
    ensures s.hasFirstSynced || |a| > 0 ==> Run(s, a + b).state.hasFirstSynced
    decreases |a|
  {
    if |a| > 0 {
      assert (a + b)[0] == a[0];
      assert (a + b)[1..] == a[1..] + b;
      RunComposes(SyncStep(if a[0] then RequestStop(s) else s).state, a[1..], b);
    } else {
      assert a + b == b;
    }
  }
}

=== FILE: wrappers.dfy ===
/** Failure-carrying datatypes shared by the whole model: Rust's `Option` and `Result`. */
module Wrappers {

  /** Rust's `Option<T>`. */
  datatype Option<+T> = None | Some(value: T)

  /** Rust's `Result<T, E>`: `Ok` is `Success`, `Err` is `Failure`. */
  datatype Result<+T, +E> = Success(value: T) | Failure(error: E)
}
